=== FILE: README.md ===
# Tabular weak-rate evaluator

A Dafny model of the tabulated weak-interaction rate code that pynucastro
generates for AMReX-Astrophysics networks
(`pynucastro/networks/tests/_amrexastro_cxx_derived_reference/table_rates.H`).
A weak rate (electron capture or beta decay) is tabulated on a rectangular
grid of temperature T and rhoY (density times electron fraction). The code
has four parts, and the model has one module for each:

- `Load`: `init_tab_info`. It reads the table rows into the grid in
  rhoY-major order. Then it converts the two axes and the rate, neutrino-loss
  and gamma-energy columns from log10 to linear. A last-written log10
  temperature above 33 is a fatal error. The temperature axis is rewritten on
  every rhoY row, so this is the value on the line of cell `(i, nrhoy)`.
- `VectorIndex`: `vector_index_lu`. A binary search that finds the lower
  index of the axis interval bracketing a query. Below the axis it returns the
  first interval and above the axis the last one.
- `Interpolate`: `bl_clamp` and `bl_extrap`, the two one-dimensional linear
  interpolants.
- `Evaluate`: `get_entries` and `tabular_evaluate`. Every table variable is
  interpolated first in temperature, then in rhoY. The code also estimates
  d(rate)/dT from finite differences and produces the four outputs: rate,
  d(rate)/dT, minus the neutrino loss, and the gamma energy.

`TableFormat` holds the data model shared by all four parts: the `table_t`
record (`TableMeta`), the `TableVars` indices, and the grid. `EvaluateProperties`
and `LoadedTable` hold the lemmas about the evaluator alone and about the
loader and evaluator together.

Conventions:

- The C++ arrays are 1-based. `At` and `Data` read Dafny sequences with the
  same 1-based indices.
- Arithmetic is exact `real` arithmetic.
- `std::pow(10, x)` is the function parameter `pow10`.
- The table file is a sequence of lines already split into numbers.

Behaviour of the code worth knowing before reading the model:

- The loader converts the axes and the rate, neutrino-loss and gamma columns
  to linear values, and the evaluator interpolates those linear values.
- Queries outside the grid are extrapolated linearly with `bl_extrap`
  (line 207), not clamped to the edge. The lemmas
  `EvaluateProperties.ExtrapolatesOutsideTemperatureAxis` and
  `EvaluateProperties.ExtrapolatesOutsideRhoyAxis` show that, for a query on a
  grid line of the other axis, the extrapolated value follows the line through
  the two outermost grid values. It differs from the edge value whenever those
  two values differ. A column that is constant along the axis keeps its edge
  value.
- Only the d(rate)/dT estimate clamps in rhoY (line 248).
- Rows are taken in a fixed order: temperature varies fastest, then rhoY.
  There is no sorting and no validation, apart from the log-temperature limit.
- The comment of `vector_index_lu` (line 117) describes the greatest index with
  `vector(index) < fvar`. The loop gives `vector(index) <= fvar`. A query exactly
  on grid line `i < vlen` returns `i`, as `VectorIndex.IndexLuAtLattice` states.

## Model

| member | source | states |
|---|---|---|
| VectorIndex.Midpoint | pynucastro/networks/tests/_amrexastro_cxx_derived_reference/table_rates.H:132 | The probe index lies between `ndn` and `nup`. It is strictly inside them once they are at least two apart, and equals `ndn` when they are adjacent or equal. Integer division agrees with C++ here, because `nup - ndn` is never negative. |
| VectorIndex.BisectInBounds | pynucastro/networks/tests/_amrexastro_cxx_derived_reference/table_rates.H:129-143 | Starting from bounds `ndn <= nup`, the halving loop's result stays inside them. It is strictly below `nup` when `ndn < nup`. |
| VectorIndex.BisectBrackets | pynucastro/networks/tests/_amrexastro_cxx_derived_reference/table_rates.H:129-143 | Suppose the loop starts with `vector(ndn) <= fvar`, with `fvar < vector(nup)` or `nup == vlen`, and with enough iterations left. Then it stops on a unit interval `[r, r+1]` that still satisfies that bracket. |
| VectorIndex.HalvingStep | pynucastro/networks/tests/_amrexastro_cxx_derived_reference/table_rates.H:132-140 | One pass of the loop body moves one bound to the probe index and reports a `break` exactly when the bounds become adjacent. Either the loop's result is the new `ndn`, or the remaining iterations from the new bounds give the same result. |
| VectorIndex.HalvingLoop | pynucastro/networks/tests/_amrexastro_cxx_derived_reference/table_rates.H:129-142 | The `for` loop with its early `break` ends with the `ndn` that the recursive description `Bisect` gives for the full axis. |
| VectorIndex.IndexLu | pynucastro/networks/tests/_amrexastro_cxx_derived_reference/table_rates.H:114-146 | For `vlen >= 2` the index is in `[1, vlen-1]`, so `[index, index+1]` is a valid interval. A query below `vector(1)` gives 1 and one above `vector(vlen)` gives `vlen-1`. A query inside the axis is bracketed by `vector(index) <= fvar <= vector(index+1)`, and `fvar < vector(index+1)` unless `index+1 == vlen`. |
| VectorIndex.VectorIndexLu | pynucastro/networks/tests/_amrexastro_cxx_derived_reference/table_rates.H:114-146 | The imperative loop with its early `break` computes `IndexLu`. So it returns an index in `[1, vlen-1]` and brackets every in-range query. |
| VectorIndex.IndexLuIsGreatest | pynucastro/networks/tests/_amrexastro_cxx_derived_reference/table_rates.H:117-120 | On a strictly increasing axis, for a query inside it, the index is the greatest one below `vlen` whose coordinate does not exceed the query. |
| VectorIndex.IndexLuAtLattice | pynucastro/networks/tests/_amrexastro_cxx_derived_reference/table_rates.H:124-143 | A query exactly on grid line `i` selects the interval that starts at `i`, or the last interval when `i == vlen`. |
| VectorIndex.IndexLuBelowSecond | pynucastro/networks/tests/_amrexastro_cxx_derived_reference/table_rates.H:124-143 | Every query below the second coordinate, including one below the axis, selects the first interval. |
| VectorIndex.IndexLuFromSecondLast | pynucastro/networks/tests/_amrexastro_cxx_derived_reference/table_rates.H:124-143 | Every query at or above `vector(vlen-1)`, including one above the axis, selects the last interval `vlen-1`. |
| Interpolate.BlClamp | pynucastro/networks/tests/_amrexastro_cxx_derived_reference/table_rates.H:149-172 | Returns `flo` when `x <= xlo` and `fhi` when `x >= xhi` (with `x > xlo`). For every `x` the result lies between `min(flo, fhi)` and `max(flo, fhi)`. |
| Interpolate.ConvexCombination | pynucastro/networks/tests/_amrexastro_cxx_derived_reference/table_rates.H:167-168 | Strictly inside `(xlo, xhi)` the interpolation formula is a weighted mean of `flo` and `fhi`, so it lies between them. |
| Interpolate.BlExtrap | pynucastro/networks/tests/_amrexastro_cxx_derived_reference/table_rates.H:174-189 | Returns exactly `flo` at `xlo` and exactly `fhi` at `xhi`. |
| Interpolate.ExtrapAgreesWithClamp | pynucastro/networks/tests/_amrexastro_cxx_derived_reference/table_rates.H:151-189 | With `xlo < xhi`, the two interpolants agree for every `x` in `[xlo, xhi]`. |
| Interpolate.BilinearWithinCorners | pynucastro/networks/tests/_amrexastro_cxx_derived_reference/table_rates.H:215-245 | Interpolating along x on two rows and then along y stays between the smallest and largest of the four corner values for a point inside the rectangle. |
| Interpolate.ExtrapLeavesClampOutside | pynucastro/networks/tests/_amrexastro_cxx_derived_reference/table_rates.H:151-189 | Outside `[xlo, xhi]`, `bl_extrap` differs from `bl_clamp` whenever `flo != fhi`, so it does not hold the endpoint value. |
| Interpolate.ExtrapMonotone | pynucastro/networks/tests/_amrexastro_cxx_derived_reference/table_rates.H:176-189 | With `xlo < xhi` and `flo <= fhi`, `bl_extrap` is non-decreasing in `x` everywhere, extrapolated region included. |
| Interpolate.ClampIsLine | pynucastro/networks/tests/_amrexastro_cxx_derived_reference/table_rates.H:163-169 | Strictly inside `(xlo, xhi)`, `bl_clamp` is the line `flo + w*(fhi - flo)` with weight `w = (x - xlo)/(xhi - xlo)`. |
| Interpolate.ExtrapOfLines | pynucastro/networks/tests/_amrexastro_cxx_derived_reference/table_rates.H:176-189 | `bl_extrap` is linear in its endpoint values: extrapolating `a + w*(b - a)` endpoint-wise gives the same weighted combination of the two extrapolations. |
| Interpolate.ClampedDifference | pynucastro/networks/tests/_amrexastro_cxx_derived_reference/table_rates.H:151-172 | The difference quotient of two `bl_clamp` interpolants on the same interval, by any nonzero divisor, is the `bl_clamp` interpolant of the endpoint difference quotients, for every `x`. |
| Interpolate.ExtrapOfClamps | pynucastro/networks/tests/_amrexastro_cxx_derived_reference/table_rates.H:151-189 | For every `x` and `t`, `bl_extrap` in t of two `bl_clamp` interpolants in x equals `bl_clamp` in x of the two `bl_extrap` interpolants in t: the two interpolations commute. |
| Interpolate.ExtrapOfClampedDifferences | pynucastro/networks/tests/_amrexastro_cxx_derived_reference/table_rates.H:268-304 | Extrapolating in t between two central differences of `bl_clamp` interpolants in x equals `bl_clamp` in x between the same extrapolated central differences taken on each x edge alone. |
| Evaluate.Locate | pynucastro/networks/tests/_amrexastro_cxx_derived_reference/table_rates.H:209-213 | For every query, the box corners `itemp_lo`, `itemp_lo+1`, `irhoy_lo` and `irhoy_lo+1` are grid indices. For a query inside an axis, that axis's box interval brackets it. |
| Evaluate.GetEntries | pynucastro/networks/tests/_amrexastro_cxx_derived_reference/table_rates.H:195-307 | Gives every query an entries array of `num_vars + 1` slots. Its body is checked to index only existing cells. This includes `itemp_lo-1` and `itemp_hi+1`, which are read only in the central-difference branch that the edge test selects. |
| Evaluate.WithinCorners | pynucastro/networks/tests/_amrexastro_cxx_derived_reference/table_rates.H:215-245 | For a query inside the box, each variable interpolated first in temperature and then in rhoY lies between the smallest and largest of its four corner values. |
| Evaluate.ForwardDerivative | pynucastro/networks/tests/_amrexastro_cxx_derived_reference/table_rates.H:250-266 | In the first or last temperature cell, the forward difference of the rhoY-clamped rates equals the rhoY clamp interpolation between the two edge rows' own forward differences. |
| Evaluate.CentralDerivative | pynucastro/networks/tests/_amrexastro_cxx_derived_reference/table_rates.H:268-305 | Away from the temperature edges, `bl_extrap` in temperature of the two central differences of rhoY-clamped rates equals the rhoY clamp interpolation between the two edge rows' own interpolated central differences. |
| Evaluate.DrateDt | pynucastro/networks/tests/_amrexastro_cxx_derived_reference/table_rates.H:247-306 | The rates behind d(rate)/dT are clamped in rhoY. For every rhoY, the derivative is the `bl_clamp` interpolation in rhoY between the derivatives computed from each edge row's stored rates alone (`DrateDtOnRow`). So at or below the box's lower rhoY it equals the lower row's derivative, and at or above its upper rhoY it equals the upper row's derivative. |
| Evaluate.TabularEvaluate | pynucastro/networks/tests/_amrexastro_cxx_derived_reference/table_rates.H:310-334 | `drate_dt` is the box derivative `DrateDt` of the located box. For a query inside the grid, the rate, minus `edot_nu` (the neutrino loss) and `edot_gamma` each lie between the smallest and largest of their values at the four box corners. |
| EvaluateProperties.LocateAtLattice | pynucastro/networks/tests/_amrexastro_cxx_derived_reference/table_rates.H:209-213 | For a query on lattice point `(temp_table(i), rhoy_table(j))`, the box's lower corner is `(i, j)`. On the last grid line of an axis it is one less. |
| EvaluateProperties.LatticeExact | pynucastro/networks/tests/_amrexastro_cxx_derived_reference/table_rates.H:209-245 | At a lattice point `(i, j)`, `entries(ivar) == data(i, j, ivar)` for every table variable. |
| EvaluateProperties.TabularEvaluateAtLattice | pynucastro/networks/tests/_amrexastro_cxx_derived_reference/table_rates.H:310-334 | At a lattice point, `rate` is the stored rate and `edot_nu` is minus the stored neutrino loss. `edot_gamma` is the stored gamma energy. |
| EvaluateProperties.EntriesWithinBox | pynucastro/networks/tests/_amrexastro_cxx_derived_reference/table_rates.H:215-245 | For a query inside the grid, every interpolated variable lies between the smallest and largest of its four box-corner values. |
| EvaluateProperties.ExtrapolatesOutsideTemperatureAxis | pynucastro/networks/tests/_amrexastro_cxx_derived_reference/table_rates.H:206-245 | Take a query below or above the temperature axis that lies on a rhoY grid line. Each variable then follows the line through the two outermost temperatures. It differs from the edge value whenever those two values differ, so it is extrapolated and not clamped. |
| EvaluateProperties.ExtrapolatesOutsideRhoyAxis | pynucastro/networks/tests/_amrexastro_cxx_derived_reference/table_rates.H:206-245 | Take a query below or above the rhoY axis that lies on a temperature grid line. Each variable then follows the line through the two outermost rhoY values. It differs from the edge value whenever those two values differ, so rhoY is extrapolated as well. |
| EvaluateProperties.DrateDtOnGridLine | pynucastro/networks/tests/_amrexastro_cxx_derived_reference/table_rates.H:247-305 | On rhoY grid line `j`, d(rate)/dT depends only on the stored rates of row `j`, whichever box side the line is on. |
| EvaluateProperties.CentralOnRow | pynucastro/networks/tests/_amrexastro_cxx_derived_reference/table_rates.H:268-304 | Away from the temperature edges, a row's derivative at the box's lower temperature is the central difference of line 298, because `bl_extrap` at `t_i` returns `drdt_i`. |
| EvaluateProperties.ForwardOnGridLine | pynucastro/networks/tests/_amrexastro_cxx_derived_reference/table_rates.H:250-266 | On a rhoY grid line, in an edge temperature cell `[ilo, ihi]`, d(rate)/dT is the forward difference over that cell, for every temperature. |
| EvaluateProperties.DrateDtCentralAtLattice | pynucastro/networks/tests/_amrexastro_cxx_derived_reference/table_rates.H:268-305 | At an interior lattice point (`2 <= i <= ntemp-2`), d(rate)/dT is the central difference `(rate(i+1) - rate(i-1)) / (T(i+1) - T(i-1))`. |
| EvaluateProperties.DrateDtForwardInFirstCell | pynucastro/networks/tests/_amrexastro_cxx_derived_reference/table_rates.H:250-266 | For any temperature below `T(2)` on a rhoY grid line, d(rate)/dT is the forward difference over the first cell. This includes temperatures below the axis. |
| EvaluateProperties.DrateDtForwardInLastCell | pynucastro/networks/tests/_amrexastro_cxx_derived_reference/table_rates.H:250-266 | For any temperature at or above `T(ntemp-1)` on a rhoY grid line, d(rate)/dT is the forward difference over the last cell. This includes temperatures above the axis. |
| EvaluateProperties.DrateDtClampedAboveRhoy | pynucastro/networks/tests/_amrexastro_cxx_derived_reference/table_rates.H:247-305 | For every rhoY at or above the last rhoY coordinate, d(rate)/dT equals its value on the last rhoY grid line. So it is held flat in rhoY, not extrapolated. |
| EvaluateProperties.DrateDtClampedBelowRhoy | pynucastro/networks/tests/_amrexastro_cxx_derived_reference/table_rates.H:247-305 | For every rhoY at or below the first rhoY coordinate, d(rate)/dT equals its value on the first rhoY grid line. |
| Load.CellToRow | pynucastro/networks/tests/_amrexastro_cxx_derived_reference/table_rates.H:74-85 | Cell `(i, j)` is read from data line `(j-1)*ntemp + (i-1)` after the header. This line lies within the `ntemp*nrhoy` data lines. |
| Load.RowToCell | pynucastro/networks/tests/_amrexastro_cxx_derived_reference/table_rates.H:69-84 | Data row `k`, counted from 0 after the `nheader` header lines, is consumed in the `k`-th inner iteration. It is exactly the line `LineOf` names for cell `(k % ntemp + 1, k / ntemp + 1)`, and that cell lies in the grid. `ReadRhoyRow` and `ReadRows` derive this order from their read cursor. |
| Load.ReadRhoyRow | pynucastro/networks/tests/_amrexastro_cxx_derived_reference/table_rates.H:75-84 | One pass of the inner loop consumes the next `ntemp` lines in order, one per `getline`, starting at the cursor. The cursor meets each cell's `LineOf` as an invariant. The pass writes column `j` of every record, the `j`-th rhoY coordinate (from the row's last line) and the whole temperature axis. Nothing else changes. |
| Load.ReadRows | pynucastro/networks/tests/_amrexastro_cxx_derived_reference/table_rates.H:66-85 | The header loop skips `nheader` lines, then the two loops consume exactly `ntemp*nrhoy` further lines in order. After this first pass every cell holds the variables of the line read for it. rhoY coordinate `j` comes from the line of cell `(ntemp, j)`. Temperature coordinate `i` comes from the line of cell `(i, nrhoy)`. |
| Load.LinearVars | pynucastro/networks/tests/_amrexastro_cxx_derived_reference/table_rates.H:102-104 | The rate, neutrino-loss and gamma columns become `pow10` of their values. `mu`, `dQ` and `Vs` are left unchanged. |
| Load.ConvertRhoyRow | pynucastro/networks/tests/_amrexastro_cxx_derived_reference/table_rates.H:88-105 | One pass of the inner conversion loop for rhoY row `j` fails exactly when `j == 1` and some log10 temperature exceeds 33. Otherwise it converts rhoY coordinate `j` and the row's cells once, and on the first row every temperature coordinate once. Rows not yet visited stay as read. |
| Load.ConvertToLinear | pynucastro/networks/tests/_amrexastro_cxx_derived_reference/table_rates.H:87-106 | Fails exactly when some log10 temperature exceeds 33. On success, `pow10` has been applied exactly once to each axis coordinate, through the `i==1` and `j==1` guards. Each cell's record is converted once as well. |
| Load.InitTabInfo | pynucastro/networks/tests/_amrexastro_cxx_derived_reference/table_rates.H:59-109 | The whole loader fails exactly when a log10 temperature (as last written) exceeds 33. Otherwise it yields the grid `LoadedFrom` describes: each cell from its own line, converted once. |
| LoadedTable.LoadedLatticeOutputs | pynucastro/networks/tests/_amrexastro_cxx_derived_reference/table_rates.H:99-104 | Evaluating a loaded table at one of its lattice points returns `pow10` of the log rate and log loss terms on that cell's line. The neutrino loss is negated. |

## Left out

- File reading (`std::ifstream`, `getline`, `istringstream`) is not modelled. The input is a sequence of lines already split into numbers. The first `nheader` lines are skipped whatever they contain.
- `std::pow(10, x)` is the loader's parameter `pow10`, a total function. Nothing is claimed about its values.
- IEEE double rounding is not modelled: every claim holds in exact real arithmetic. In particular, `EvaluateProperties.LatticeExact` and `Interpolate.BlExtrap` promise exact values only in that arithmetic.
- `amrex::Error` aborts the program. The model returns `Failure(TableNeedsUpdate)` instead.
- Load.InitTabInfo: requires at least one point on each axis, `nheader >= 0` and `nvars == num_vars`. With a negative `nheader` the source's header loop skips no lines, and the model does not describe that input. It also requires at least `nheader + ntemp*nrhoy` lines, each with `2 + nvars` numbers. The source assumes such a file. With a short file or row, its stream extraction leaves values unset, and the model does not describe those values.
- Evaluate.GetEntries: requires at least two points on each axis, because the source reads `itemp_lo+1` and `irhoy_lo+1`. It also requires strictly increasing axes. Two things rest on that order. First, `vector_index_lu`'s binary search assumes a sorted axis. Second, the source divides by differences of the coordinates it reads: the box's two coordinates on each axis, and `t(i+1) - t(i-1)` and `t(i+2) - t(i)` in the central-difference branch. Only those divisors need to be nonzero. Equal coordinates there would give infinities or NaN in floating point, which real arithmetic cannot represent.
- Interpolate.BlExtrap: requires `xlo != xhi`, for the same reason.
- The values of `mu`, `dQ` and `Vs` are interpolated like the other variables. The model states nothing about their physical meaning.
- AMReX GPU and inline macros, the `Array1D`/`Array3D` containers, `num_tables = 0`, the empty `rate_tables` namespace and the `init_tabular` declaration carry no behaviour.
- The three generated `actual_network.H` files hold constant enumerations and name tables, with no logic to verify.
- The Python test `pynucastro/rates/tests/test_tabular_rates.py` checks floating-point reference values. They depend on table data files and on library and composition code that are not part of this model. Its relation `rate = Y(reactant) * eval(T, rho*Ye)` is the caller's concern and is not modelled. The same holds for the composition, library and rate-collection layers.

=== FILE: evaluate.dfy ===
/**
 The two-dimensional evaluator (`get_entries`, `tabular_evaluate`): locate
 the grid box around the query, interpolate every table variable first in
 temperature and then in rhoY with the extrapolating interpolant, and
 estimate d(rate)/dT from finite differences of rhoY-clamped rates.
 */
module Evaluate {
  import opened TableFormat
  import opened VectorIndex
  import opened Interpolate

  /** The lower-left corner (temperature index, rhoY index) of the grid box used for a query. */
  datatype Box = Box(itempLo: int, irhoyLo: int)

  /** The outputs of `tabular_evaluate`. */
  datatype RateOutputs = RateOutputs(rate: real, drateDt: real, edotNu: real, edotGamma: real)

  /** A table the evaluator can be applied to: at least two points per axis, increasing axes. */
  predicate Evaluable(meta: TableMeta, g: Grid) {
    && meta.ntemp >= 2
    && meta.nrhoy >= 2
    && Shaped(meta, g)
    && StrictlyIncreasing(g.temp, meta.ntemp)
    && StrictlyIncreasing(g.rhoy, meta.nrhoy)
  }

  /** Both the box and its upper neighbours are grid points. */
  predicate InGrid(meta: TableMeta, b: Box) {
    && 1 <= b.itempLo < meta.ntemp
    && 1 <= b.irhoyLo < meta.nrhoy
  }

  /** The box's temperature interval is the first or the last one of the axis. */
  predicate AtTemperatureEdge(meta: TableMeta, b: Box) {
    b.itempLo - 1 < 1 || b.itempLo + 1 + 1 > meta.ntemp
  }

  /** The query lies inside both axes of the table. */
  predicate InsideGrid(meta: TableMeta, g: Grid, rhoy: real, temp: real)
    requires Evaluable(meta, g)
  {
    && At(g.temp, 1) <= temp <= At(g.temp, meta.ntemp)
    && At(g.rhoy, 1) <= rhoy <= At(g.rhoy, meta.nrhoy)
  }

  /** The smallest of variable `ivar`'s four values at the corners of box `b`. */
  function CornerMin(meta: TableMeta, g: Grid, b: Box, ivar: int): real
    requires Evaluable(meta, g) && InGrid(meta, b) && 1 <= ivar <= NumVars
  {
    var ilo, jlo := b.itempLo, b.irhoyLo;
    Min(Min(Data(g, ilo, jlo, ivar), Data(g, ilo + 1, jlo, ivar)),
        Min(Data(g, ilo, jlo + 1, ivar), Data(g, ilo + 1, jlo + 1, ivar)))
  }

  /** The largest of variable `ivar`'s four values at the corners of box `b`. */
  function CornerMax(meta: TableMeta, g: Grid, b: Box, ivar: int): real
    requires Evaluable(meta, g) && InGrid(meta, b) && 1 <= ivar <= NumVars
  {
    var ilo, jlo := b.itempLo, b.irhoyLo;
    Max(Max(Data(g, ilo, jlo, ivar), Data(g, ilo + 1, jlo, ivar)),
        Max(Data(g, ilo, jlo + 1, ivar), Data(g, ilo + 1, jlo + 1, ivar)))
  }

  /** The box whose corners are interpolated for a query (`irhoy_lo`, `itemp_lo`). */
  function Locate(meta: TableMeta, g: Grid, rhoy: real, temp: real): (b: Box)
    requires Evaluable(meta, g)
    ensures InGrid(meta, b)
    ensures At(g.temp, 1) <= temp <= At(g.temp, meta.ntemp)
            ==> At(g.temp, b.itempLo) <= temp <= At(g.temp, b.itempLo + 1)
    ensures At(g.rhoy, 1) <= rhoy <= At(g.rhoy, meta.nrhoy)
            ==> At(g.rhoy, b.irhoyLo) <= rhoy <= At(g.rhoy, b.irhoyLo + 1)
  {
    Box(IndexLu(meta.ntemp, g.temp, temp), IndexLu(meta.nrhoy, g.rhoy, rhoy))
  }

  /** Variable `ivar` interpolated in temperature along rhoY row `j` of the box. */
  function AlongTemperature(meta: TableMeta, g: Grid, b: Box, j: int, temp: real, ivar: int): real
    requires Evaluable(meta, g) && InGrid(meta, b)
    requires 1 <= j <= meta.nrhoy && 1 <= ivar <= NumVars
  {
    var ilo := b.itempLo;
    BlExtrap(At(g.temp, ilo), At(g.temp, ilo + 1), Data(g, ilo, j, ivar), Data(g, ilo + 1, j, ivar), temp)
  }

  /** Variable `ivar` at the query: the two temperature interpolants, interpolated in rhoY. */
  function Interpolated(meta: TableMeta, g: Grid, b: Box, rhoy: real, temp: real, ivar: int): real
    requires Evaluable(meta, g) && InGrid(meta, b)
    requires 1 <= ivar <= NumVars
  {
    var jlo := b.irhoyLo;
    BlExtrap(At(g.rhoy, jlo), At(g.rhoy, jlo + 1),
             AlongTemperature(meta, g, b, jlo, temp, ivar),
             AlongTemperature(meta, g, b, jlo + 1, temp, ivar),
             rhoy)
  }

  /** The rate at temperature row `i`, interpolated in rhoY and held flat outside the box. */
  function RateAcrossRhoy(meta: TableMeta, g: Grid, b: Box, i: int, rhoy: real): real
    requires Evaluable(meta, g) && InGrid(meta, b)
    requires 1 <= i <= meta.ntemp
  {
    var jlo := b.irhoyLo;
    BlClamp(At(g.rhoy, jlo), At(g.rhoy, jlo + 1), Data(g, i, jlo, JtabRate), Data(g, i, jlo + 1, JtabRate), rhoy)
  }

  /**
   d(rate)/dT for box `b` computed from the stored rates of rhoY row `j`
   alone: the forward difference in an edge cell, otherwise the central
   differences at the two box temperatures interpolated in temperature.
   */
  function DrateDtOnRow(meta: TableMeta, g: Grid, b: Box, j: int, temp: real): real
    requires Evaluable(meta, g) && InGrid(meta, b)
    requires 1 <= j <= meta.nrhoy
  {
    var ilo := b.itempLo;
    if AtTemperatureEdge(meta, b) then
      (Data(g, ilo + 1, j, JtabRate) - Data(g, ilo, j, JtabRate)) / (At(g.temp, ilo + 1) - At(g.temp, ilo))
    else
      var tIm1, tI, tIp1, tIp2 := At(g.temp, ilo - 1), At(g.temp, ilo), At(g.temp, ilo + 1), At(g.temp, ilo + 2);
      BlExtrap(tI, tIp1,
               (Data(g, ilo + 1, j, JtabRate) - Data(g, ilo - 1, j, JtabRate)) / (tIp1 - tIm1),
               (Data(g, ilo + 2, j, JtabRate) - Data(g, ilo, j, JtabRate)) / (tIp2 - tI),
               temp)
  }

  /**
   d(rate)/dT in the first or last temperature cell: the forward difference
   of the rhoY-clamped rates, which is the rhoY clamp interpolation of the
   forward differences of the box's two edge rows.
   */
  function ForwardDerivative(meta: TableMeta, g: Grid, b: Box, rhoy: real, temp: real): (d: real)
    requires Evaluable(meta, g) && InGrid(meta, b) && AtTemperatureEdge(meta, b)
    ensures d == BlClamp(At(g.rhoy, b.irhoyLo), At(g.rhoy, b.irhoyLo + 1),
                         DrateDtOnRow(meta, g, b, b.irhoyLo, temp), DrateDtOnRow(meta, g, b, b.irhoyLo + 1, temp), rhoy)
  {
    var ilo, jlo := b.itempLo, b.irhoyLo;
    var dt := At(g.temp, ilo + 1) - At(g.temp, ilo);
    assert At(g.rhoy, jlo) < At(g.rhoy, jlo + 1) && dt > 0.0;
    ClampedDifference(At(g.rhoy, jlo), At(g.rhoy, jlo + 1),
                      Data(g, ilo + 1, jlo, JtabRate), Data(g, ilo + 1, jlo + 1, JtabRate),
                      Data(g, ilo, jlo, JtabRate), Data(g, ilo, jlo + 1, JtabRate), dt, rhoy);
    (RateAcrossRhoy(meta, g, b, ilo + 1, rhoy) - RateAcrossRhoy(meta, g, b, ilo, rhoy)) / dt
  }

  /** Away from the temperature edges, a row's derivative interpolates its two central differences. */
  lemma CentralRow(meta: TableMeta, g: Grid, b: Box, j: int, temp: real)
    requires Evaluable(meta, g) && InGrid(meta, b) && !AtTemperatureEdge(meta, b)
    requires 1 <= j <= meta.nrhoy
    ensures var ilo := b.itempLo;
            DrateDtOnRow(meta, g, b, j, temp)
            == BlExtrap(At(g.temp, ilo), At(g.temp, ilo + 1),
                        (Data(g, ilo + 1, j, JtabRate) - Data(g, ilo - 1, j, JtabRate)) / (At(g.temp, ilo + 1) - At(g.temp, ilo - 1)),
                        (Data(g, ilo + 2, j, JtabRate) - Data(g, ilo, j, JtabRate)) / (At(g.temp, ilo + 2) - At(g.temp, ilo)),
                        temp)
  {
  }

  /**
   d(rate)/dT away from the temperature edges: the central differences of
   the rhoY-clamped rates at the two box temperatures, interpolated in
   temperature; this is the rhoY clamp interpolation of the same
   derivative taken along each of the box's two edge rows.
   */
  function CentralDerivative(meta: TableMeta, g: Grid, b: Box, rhoy: real, temp: real): (d: real)
    requires Evaluable(meta, g) && InGrid(meta, b) && !AtTemperatureEdge(meta, b)
    ensures d == BlClamp(At(g.rhoy, b.irhoyLo), At(g.rhoy, b.irhoyLo + 1),
                         DrateDtOnRow(meta, g, b, b.irhoyLo, temp), DrateDtOnRow(meta, g, b, b.irhoyLo + 1, temp), rhoy)
  {
    var ilo, jlo := b.itempLo, b.irhoyLo;
    var rlo, rhi := At(g.rhoy, jlo), At(g.rhoy, jlo + 1);
    var tIm1, tI, tIp1, tIp2 := At(g.temp, ilo - 1), At(g.temp, ilo), At(g.temp, ilo + 1), At(g.temp, ilo + 2);
    assert rlo < rhi && tIm1 < tI < tIp1 < tIp2;
    var m1lo, m1hi := Data(g, ilo - 1, jlo, JtabRate), Data(g, ilo - 1, jlo + 1, JtabRate);
    var z0lo, z0hi := Data(g, ilo, jlo, JtabRate), Data(g, ilo, jlo + 1, JtabRate);
    var p1lo, p1hi := Data(g, ilo + 1, jlo, JtabRate), Data(g, ilo + 1, jlo + 1, JtabRate);
    var p2lo, p2hi := Data(g, ilo + 2, jlo, JtabRate), Data(g, ilo + 2, jlo + 1, JtabRate);
    CentralRow(meta, g, b, jlo, temp);
    CentralRow(meta, g, b, jlo + 1, temp);
    ExtrapOfClampedDifferences(rlo, rhi, tIm1, tI, tIp1, tIp2, m1lo, m1hi, z0lo, z0hi, p1lo, p1hi, p2lo, p2hi,
                               RateAcrossRhoy(meta, g, b, ilo - 1, rhoy), RateAcrossRhoy(meta, g, b, ilo, rhoy),
                               RateAcrossRhoy(meta, g, b, ilo + 1, rhoy), RateAcrossRhoy(meta, g, b, ilo + 2, rhoy), rhoy, temp);
    var drdtI := (RateAcrossRhoy(meta, g, b, ilo + 1, rhoy) - RateAcrossRhoy(meta, g, b, ilo - 1, rhoy)) / (tIp1 - tIm1);
    var drdtIp1 := (RateAcrossRhoy(meta, g, b, ilo + 2, rhoy) - RateAcrossRhoy(meta, g, b, ilo, rhoy)) / (tIp2 - tI);
    BlExtrap(tI, tIp1, drdtI, drdtIp1, temp)
  }

  /**
   d(rate)/dT: the forward difference in the first and last temperature
   cells, the interpolated central differences elsewhere. The result is the
   rhoY clamp interpolation of the derivatives of the box's two edge rows,
   so at or beyond either rhoY edge it is the derivative of that edge row.
   */
  function DrateDt(meta: TableMeta, g: Grid, b: Box, rhoy: real, temp: real): (d: real)
    requires Evaluable(meta, g) && InGrid(meta, b)
    ensures d == BlClamp(At(g.rhoy, b.irhoyLo), At(g.rhoy, b.irhoyLo + 1),
                         DrateDtOnRow(meta, g, b, b.irhoyLo, temp), DrateDtOnRow(meta, g, b, b.irhoyLo + 1, temp), rhoy)
    ensures rhoy <= At(g.rhoy, b.irhoyLo) ==> d == DrateDtOnRow(meta, g, b, b.irhoyLo, temp)
    ensures At(g.rhoy, b.irhoyLo + 1) <= rhoy ==> d == DrateDtOnRow(meta, g, b, b.irhoyLo + 1, temp)
  {
    assert At(g.rhoy, b.irhoyLo) < At(g.rhoy, b.irhoyLo + 1);
    if AtTemperatureEdge(meta, b) then ForwardDerivative(meta, g, b, rhoy, temp)
    else CentralDerivative(meta, g, b, rhoy, temp)
  }

  /**
   The entries array of `get_entries`: slots 1..NumVars hold the table
   variables at the query and slot KDrateDt holds d(rate)/dT.
   */
  function GetEntries(meta: TableMeta, g: Grid, rhoy: real, temp: real): (entries: seq<real>)
    requires Evaluable(meta, g)
    ensures |entries| == NumVars + AddVars
  {
    var b := Locate(meta, g, rhoy, temp);
    seq(NumVars, n0 requires 0 <= n0 < NumVars => Interpolated(meta, g, b, rhoy, temp, n0 + 1))
      + [DrateDt(meta, g, b, rhoy, temp)]
  }

  /** The rate, the neutrino loss and the gamma energy lie within their values at the corners of box `b`. */
  predicate OutputsWithinBox(meta: TableMeta, g: Grid, b: Box, out: RateOutputs)
    requires Evaluable(meta, g) && InGrid(meta, b)
  {
    && CornerMin(meta, g, b, JtabRate) <= out.rate <= CornerMax(meta, g, b, JtabRate)
    && CornerMin(meta, g, b, JtabNuloss) <= -out.edotNu <= CornerMax(meta, g, b, JtabNuloss)
    && CornerMin(meta, g, b, JtabGamma) <= out.edotGamma <= CornerMax(meta, g, b, JtabGamma)
  }

  /**
   `tabular_evaluate`: the rate, its temperature derivative, and the two
   energy-loss terms (the neutrino loss negated). Inside the grid the rate,
   the neutrino loss and the gamma energy lie within their values at the
   corners of the located box.
   */
  function TabularEvaluate(meta: TableMeta, g: Grid, rhoy: real, temp: real): (out: RateOutputs)
    requires Evaluable(meta, g)
    ensures out.drateDt == DrateDt(meta, g, Locate(meta, g, rhoy, temp), rhoy, temp)
    ensures InsideGrid(meta, g, rhoy, temp) ==> OutputsWithinBox(meta, g, Locate(meta, g, rhoy, temp), out)
  {
    var entries := GetEntries(meta, g, rhoy, temp);
    var b := Locate(meta, g, rhoy, temp);
    assert At(entries, KDrateDt) == entries[NumVars];
    var out := RateOutputs(At(entries, JtabRate), At(entries, KDrateDt), -At(entries, JtabNuloss), At(entries, JtabGamma));
    if InsideGrid(meta, g, rhoy, temp) then
      WithinCorners(meta, g, b, rhoy, temp, JtabRate);
      WithinCorners(meta, g, b, rhoy, temp, JtabNuloss);
      WithinCorners(meta, g, b, rhoy, temp, JtabGamma);
      out
    else
      out
  }

  /** Inside the box, variable `ivar` interpolated at the query lies within its corner values. */
  lemma WithinCorners(meta: TableMeta, g: Grid, b: Box, rhoy: real, temp: real, ivar: int)
    requires Evaluable(meta, g) && InGrid(meta, b) && 1 <= ivar <= NumVars
    requires At(g.temp, b.itempLo) <= temp <= At(g.temp, b.itempLo + 1)
    requires At(g.rhoy, b.irhoyLo) <= rhoy <= At(g.rhoy, b.irhoyLo + 1)
    ensures CornerMin(meta, g, b, ivar) <= Interpolated(meta, g, b, rhoy, temp, ivar) <= CornerMax(meta, g, b, ivar)
  {
    var ilo, jlo := b.itempLo, b.irhoyLo;
    assert At(g.temp, ilo) < At(g.temp, ilo + 1);
    assert At(g.rhoy, jlo) < At(g.rhoy, jlo + 1);
    BilinearWithinCorners(At(g.temp, ilo), At(g.temp, ilo + 1), At(g.rhoy, jlo), At(g.rhoy, jlo + 1),
                          Data(g, ilo, jlo, ivar), Data(g, ilo + 1, jlo, ivar),
                          Data(g, ilo, jlo + 1, ivar), Data(g, ilo + 1, jlo + 1, ivar), temp, rhoy);
  }
}

=== FILE: evaluate_properties.dfy ===
/**
 What the evaluator promises at and around the grid: exact values at
 lattice points, bounds inside a grid box, linear (not flat) behaviour
 outside the axes, and the finite differences behind d(rate)/dT.
 All statements are in exact real arithmetic.
 */
module EvaluateProperties {
  import opened TableFormat
  import opened VectorIndex
  import opened Interpolate
  import opened Evaluate

  /** The box located for a query on lattice point (i, j) has that point as a corner. */
  lemma LocateAtLattice(meta: TableMeta, g: Grid, i: int, j: int)
    requires Evaluable(meta, g)
    requires 1 <= i <= meta.ntemp && 1 <= j <= meta.nrhoy
    ensures var b := Locate(meta, g, At(g.rhoy, j), At(g.temp, i));
            && b.itempLo == (if i < meta.ntemp then i else i - 1)
            && b.irhoyLo == (if j < meta.nrhoy then j else j - 1)
  {
    IndexLuAtLattice(meta.ntemp, g.temp, i);
    IndexLuAtLattice(meta.nrhoy, g.rhoy, j);
  }

  /** At a lattice point every interpolated variable is the stored cell value. */
  lemma {:induction false} LatticeExact(meta: TableMeta, g: Grid, i: int, j: int)
    requires Evaluable(meta, g)
    requires 1 <= i <= meta.ntemp && 1 <= j <= meta.nrhoy
    ensures forall n :: 1 <= n <= NumVars ==>
              At(GetEntries(meta, g, At(g.rhoy, j), At(g.temp, i)), n) == Data(g, i, j, n)
  {
    var rhoy, temp := At(g.rhoy, j), At(g.temp, i);
    var b := Locate(meta, g, rhoy, temp);
    LocateAtLattice(meta, g, i, j);
    var entries := GetEntries(meta, g, rhoy, temp);
    forall n | 1 <= n <= NumVars
      ensures At(entries, n) == Data(g, i, j, n)
    {
      var jlo := b.irhoyLo;
      assert AlongTemperature(meta, g, b, jlo, temp, n) == Data(g, i, jlo, n);
      assert AlongTemperature(meta, g, b, jlo + 1, temp, n) == Data(g, i, jlo + 1, n);
      assert At(entries, n) == Interpolated(meta, g, b, rhoy, temp, n);
    }
  }

  /** At a lattice point the evaluator returns the stored rate and loss terms, the neutrino loss negated. */
  lemma TabularEvaluateAtLattice(meta: TableMeta, g: Grid, i: int, j: int)
    requires Evaluable(meta, g)
    requires 1 <= i <= meta.ntemp && 1 <= j <= meta.nrhoy
    ensures var out := TabularEvaluate(meta, g, At(g.rhoy, j), At(g.temp, i));
            && out.rate == Data(g, i, j, JtabRate)
            && out.edotNu == -Data(g, i, j, JtabNuloss)
            && out.edotGamma == Data(g, i, j, JtabGamma)
  {
    LatticeExact(meta, g, i, j);
  }

  /**
   For a query inside the grid, every interpolated variable lies between the
   smallest and the largest of its four values at the corners of the box.
   */
  lemma EntriesWithinBox(meta: TableMeta, g: Grid, rhoy: real, temp: real, n: int)
    requires Evaluable(meta, g)
    requires InsideGrid(meta, g, rhoy, temp)
    requires 1 <= n <= NumVars
    ensures var b := Locate(meta, g, rhoy, temp);
            CornerMin(meta, g, b, n) <= At(GetEntries(meta, g, rhoy, temp), n) <= CornerMax(meta, g, b, n)
  {
    var b := Locate(meta, g, rhoy, temp);
    WithinCorners(meta, g, b, rhoy, temp, n);
    assert At(GetEntries(meta, g, rhoy, temp), n) == Interpolated(meta, g, b, rhoy, temp, n);
  }

  /**
   Beyond either end of the temperature axis, on a rhoY grid line, a
   variable follows the line through the two outermost temperatures; it
   differs from the edge value whenever those two values differ.
   */
  lemma {:induction false} ExtrapolatesOutsideTemperatureAxis(meta: TableMeta, g: Grid, j: int, temp: real, n: int)
    requires Evaluable(meta, g)
    requires 1 <= j <= meta.nrhoy && 1 <= n <= NumVars
    requires temp < At(g.temp, 1) || At(g.temp, meta.ntemp) < temp
    ensures var ilo := if temp < At(g.temp, 1) then 1 else meta.ntemp - 1;
            var iedge := if temp < At(g.temp, 1) then 1 else meta.ntemp;
            var f := At(GetEntries(meta, g, At(g.rhoy, j), temp), n);
            && f == BlExtrap(At(g.temp, ilo), At(g.temp, ilo + 1), Data(g, ilo, j, n), Data(g, ilo + 1, j, n), temp)
            && (Data(g, ilo, j, n) != Data(g, ilo + 1, j, n) ==> f != Data(g, iedge, j, n))
  {
    var rhoy := At(g.rhoy, j);
    var b := Locate(meta, g, rhoy, temp);
    IndexLuAtLattice(meta.nrhoy, g.rhoy, j);
    var ilo := b.itempLo;
    assert ilo == if temp < At(g.temp, 1) then 1 else meta.ntemp - 1;
    var tlo, thi := At(g.temp, ilo), At(g.temp, ilo + 1);
    assert tlo < thi;
    assert At(GetEntries(meta, g, rhoy, temp), n) == Interpolated(meta, g, b, rhoy, temp, n);
    var flo, fhi := Data(g, ilo, j, n), Data(g, ilo + 1, j, n);
    if flo != fhi {
      ExtrapLeavesClampOutside(tlo, thi, flo, fhi, temp);
    }
  }

  /**
   Beyond either end of the rhoY axis, on a temperature grid line, a
   variable follows the line through the two outermost rhoY values; it
   differs from the edge value whenever those two values differ.
   */
  lemma {:induction false} ExtrapolatesOutsideRhoyAxis(meta: TableMeta, g: Grid, i: int, rhoy: real, n: int)
    requires Evaluable(meta, g)
    requires 1 <= i <= meta.ntemp && 1 <= n <= NumVars
    requires rhoy < At(g.rhoy, 1) || At(g.rhoy, meta.nrhoy) < rhoy
    ensures var jlo := if rhoy < At(g.rhoy, 1) then 1 else meta.nrhoy - 1;
            var jedge := if rhoy < At(g.rhoy, 1) then 1 else meta.nrhoy;
            var f := At(GetEntries(meta, g, rhoy, At(g.temp, i)), n);
            && f == BlExtrap(At(g.rhoy, jlo), At(g.rhoy, jlo + 1), Data(g, i, jlo, n), Data(g, i, jlo + 1, n), rhoy)
            && (Data(g, i, jlo, n) != Data(g, i, jlo + 1, n) ==> f != Data(g, i, jedge, n))
  {
    var temp := At(g.temp, i);
    var b := Locate(meta, g, rhoy, temp);
    IndexLuAtLattice(meta.ntemp, g.temp, i);
    var jlo := b.irhoyLo;
    assert jlo == if rhoy < At(g.rhoy, 1) then 1 else meta.nrhoy - 1;
    assert AlongTemperature(meta, g, b, jlo, temp, n) == Data(g, i, jlo, n);
    assert AlongTemperature(meta, g, b, jlo + 1, temp, n) == Data(g, i, jlo + 1, n);
    var rlo, rhi := At(g.rhoy, jlo), At(g.rhoy, jlo + 1);
    assert rlo < rhi;
    assert At(GetEntries(meta, g, rhoy, temp), n) == Interpolated(meta, g, b, rhoy, temp, n);
    var flo, fhi := Data(g, i, jlo, n), Data(g, i, jlo + 1, n);
    if flo != fhi {
      ExtrapLeavesClampOutside(rlo, rhi, flo, fhi, rhoy);
    }
  }

  /** On rhoY grid line `j`, d(rate)/dT is computed from the stored rates of row `j` alone. */
  lemma DrateDtOnGridLine(meta: TableMeta, g: Grid, j: int, temp: real)
    requires Evaluable(meta, g)
    requires 1 <= j <= meta.nrhoy
    ensures TabularEvaluate(meta, g, At(g.rhoy, j), temp).drateDt
            == DrateDtOnRow(meta, g, Locate(meta, g, At(g.rhoy, j), temp), j, temp)
  {
    var rhoy := At(g.rhoy, j);
    var b := Locate(meta, g, rhoy, temp);
    IndexLuAtLattice(meta.nrhoy, g.rhoy, j);
    assert TabularEvaluate(meta, g, rhoy, temp).drateDt == DrateDt(meta, g, b, rhoy, temp);
    if j < meta.nrhoy {
      assert b.irhoyLo == j;
    } else {
      assert b.irhoyLo + 1 == j;
    }
  }

  /** Away from the temperature edges, the row derivative at the box's lower temperature is its central difference. */
  lemma CentralOnRow(meta: TableMeta, g: Grid, b: Box, i: int, j: int)
    requires Evaluable(meta, g) && InGrid(meta, b)
    requires 1 <= j <= meta.nrhoy
    requires b.itempLo == i && !AtTemperatureEdge(meta, b)
    ensures DrateDtOnRow(meta, g, b, j, At(g.temp, i))
            == (Data(g, i + 1, j, JtabRate) - Data(g, i - 1, j, JtabRate)) / (At(g.temp, i + 1) - At(g.temp, i - 1))
  {
    assert At(g.temp, i) < At(g.temp, i + 1);
  }

  /**
   On rhoY grid line `j`, when the located temperature cell is an edge cell
   `[ilo, ihi]`, d(rate)/dT is the forward difference over that cell.
   */
  lemma ForwardOnGridLine(meta: TableMeta, g: Grid, j: int, temp: real, ilo: int, ihi: int)
    requires Evaluable(meta, g)
    requires 1 <= j <= meta.nrhoy
    requires Locate(meta, g, At(g.rhoy, j), temp).itempLo == ilo && ihi == ilo + 1
    requires AtTemperatureEdge(meta, Locate(meta, g, At(g.rhoy, j), temp))
    ensures TabularEvaluate(meta, g, At(g.rhoy, j), temp).drateDt
            == (Data(g, ihi, j, JtabRate) - Data(g, ilo, j, JtabRate)) / (At(g.temp, ihi) - At(g.temp, ilo))
  {
    DrateDtOnGridLine(meta, g, j, temp);
  }

  /** At an interior lattice point d(rate)/dT is the central difference of the neighbouring rates. */
  lemma {:induction false} DrateDtCentralAtLattice(meta: TableMeta, g: Grid, i: int, j: int)
    requires Evaluable(meta, g)
    requires 2 <= i <= meta.ntemp - 2 && 1 <= j <= meta.nrhoy
    ensures TabularEvaluate(meta, g, At(g.rhoy, j), At(g.temp, i)).drateDt
            == (Data(g, i + 1, j, JtabRate) - Data(g, i - 1, j, JtabRate)) / (At(g.temp, i + 1) - At(g.temp, i - 1))
  {
    var temp := At(g.temp, i);
    var b := Locate(meta, g, At(g.rhoy, j), temp);
    IndexLuAtLattice(meta.ntemp, g.temp, i);
    assert b.itempLo == i;
    DrateDtOnGridLine(meta, g, j, temp);
    CentralOnRow(meta, g, b, i, j);
  }

  /**
   Below the second temperature (including below the axis), on a rhoY grid
   line, d(rate)/dT is the forward difference over the first temperature cell.
   */
  lemma {:induction false} DrateDtForwardInFirstCell(meta: TableMeta, g: Grid, j: int, temp: real)
    requires Evaluable(meta, g)
    requires 1 <= j <= meta.nrhoy
    requires temp < At(g.temp, 2)
    ensures TabularEvaluate(meta, g, At(g.rhoy, j), temp).drateDt
            == (Data(g, 2, j, JtabRate) - Data(g, 1, j, JtabRate)) / (At(g.temp, 2) - At(g.temp, 1))
  {
    IndexLuBelowSecond(meta.ntemp, g.temp, temp);
    ForwardOnGridLine(meta, g, j, temp, 1, 2);
  }

  /**
   From the second-to-last temperature on (including above the axis), on a
   rhoY grid line, d(rate)/dT is the forward difference over the last
   temperature cell.
   */
  lemma {:induction false} DrateDtForwardInLastCell(meta: TableMeta, g: Grid, j: int, temp: real)
    requires Evaluable(meta, g)
    requires 1 <= j <= meta.nrhoy
    requires At(g.temp, meta.ntemp - 1) <= temp
    ensures TabularEvaluate(meta, g, At(g.rhoy, j), temp).drateDt
            == (Data(g, meta.ntemp, j, JtabRate) - Data(g, meta.ntemp - 1, j, JtabRate))
               / (At(g.temp, meta.ntemp) - At(g.temp, meta.ntemp - 1))
  {
    IndexLuFromSecondLast(meta.ntemp, g.temp, temp);
    ForwardOnGridLine(meta, g, j, temp, meta.ntemp - 1, meta.ntemp);
  }

  /** Above the rhoY axis, d(rate)/dT does not change with rhoY: it is the value on the last rhoY grid line. */
  lemma {:induction false} DrateDtClampedAboveRhoy(meta: TableMeta, g: Grid, rhoy: real, temp: real)
    requires Evaluable(meta, g)
    requires At(g.rhoy, meta.nrhoy) <= rhoy
    ensures TabularEvaluate(meta, g, rhoy, temp).drateDt
            == TabularEvaluate(meta, g, At(g.rhoy, meta.nrhoy), temp).drateDt
  {
    var edge := At(g.rhoy, meta.nrhoy);
    var b := Locate(meta, g, rhoy, temp);
    IndexLuAtLattice(meta.nrhoy, g.rhoy, meta.nrhoy);
    assert Locate(meta, g, edge, temp) == b;
    assert TabularEvaluate(meta, g, rhoy, temp).drateDt == DrateDt(meta, g, b, rhoy, temp);
    assert TabularEvaluate(meta, g, edge, temp).drateDt == DrateDt(meta, g, b, edge, temp);
    assert b.irhoyLo + 1 == meta.nrhoy;
  }

  /** Below the rhoY axis, d(rate)/dT does not change with rhoY: it is the value on the first rhoY grid line. */
  lemma {:induction false} DrateDtClampedBelowRhoy(meta: TableMeta, g: Grid, rhoy: real, temp: real)
    requires Evaluable(meta, g)
    requires rhoy <= At(g.rhoy, 1)
    ensures TabularEvaluate(meta, g, rhoy, temp).drateDt
            == TabularEvaluate(meta, g, At(g.rhoy, 1), temp).drateDt
  {
    var edge := At(g.rhoy, 1);
    var b := Locate(meta, g, rhoy, temp);
    IndexLuAtLattice(meta.nrhoy, g.rhoy, 1);
    assert Locate(meta, g, edge, temp) == b;
    assert TabularEvaluate(meta, g, rhoy, temp).drateDt == DrateDt(meta, g, b, rhoy, temp);
    assert TabularEvaluate(meta, g, edge, temp).drateDt == DrateDt(meta, g, b, edge, temp);
    assert b.irhoyLo == 1;
  }
}

=== FILE: interpolate.dfy ===
/**
 The two one-dimensional linear interpolants of the evaluator: `BlClamp`
 holds the endpoint value outside `[xlo, xhi]`, `BlExtrap` continues the
 line through the two endpoints beyond it.
 */
module Interpolate {
  import opened TableFormat

  /** Linear interpolation between (xlo, flo) and (xhi, fhi), held flat outside the interval. */
  function BlClamp(xlo: real, xhi: real, flo: real, fhi: real, x: real): (f: real)
    ensures x <= xlo ==> f == flo
    ensures xlo < x && xhi <= x ==> f == fhi
    ensures Min(flo, fhi) <= f <= Max(flo, fhi)
  {
    if x <= xlo then flo
    else if x >= xhi then fhi
    else
      ConvexCombination(flo, fhi, xlo, xhi, x);
      (flo * (xhi - x) + fhi * (x - xlo)) / (xhi - xlo)
  }

  /** The line through (xlo, flo) and (xhi, fhi), evaluated anywhere. */
  function BlExtrap(xlo: real, xhi: real, flo: real, fhi: real, x: real): (f: real)
    requires xlo != xhi
    ensures x == xlo ==> f == flo
    ensures x == xhi ==> f == fhi
  {
    (flo * (xhi - x) + fhi * (x - xlo)) / (xhi - xlo)
  }

  /** A point strictly inside the interval gets a weighted mean of the endpoint values. */
  lemma ConvexCombination(flo: real, fhi: real, xlo: real, xhi: real, x: real)
    requires xlo < x < xhi
    ensures Min(flo, fhi) <= (flo * (xhi - x) + fhi * (x - xlo)) / (xhi - xlo) <= Max(flo, fhi)
  {
    var wa, wb := xhi - x, x - xlo;
    var m := (flo * wa + fhi * wb) / (xhi - xlo);
    assert m * (xhi - xlo) == flo * wa + fhi * wb;
    assert (m - flo) * (xhi - xlo) == (fhi - flo) * wb;
    assert (m - fhi) * (xhi - xlo) == (flo - fhi) * wa;
    if flo <= fhi {
      SignOfProduct(fhi - flo, wb);
      SignOfProduct(fhi - flo, wa);
      SignFromProduct(m - flo, xhi - xlo);
      SignFromProduct(fhi - m, xhi - xlo);
    } else {
      SignOfProduct(flo - fhi, wb);
      SignOfProduct(flo - fhi, wa);
      SignFromProduct(flo - m, xhi - xlo);
      SignFromProduct(m - fhi, xhi - xlo);
    }
  }

  lemma SignOfProduct(a: real, b: real)
    requires a >= 0.0 && b >= 0.0
    ensures a * b >= 0.0
  {
  }

  lemma SignFromProduct(a: real, p: real)
    requires p > 0.0 && a * p >= 0.0
    ensures a >= 0.0
  {
  }

  /** Inside its interval the extrapolating interpolant is the clamping one. */
  lemma ExtrapAgreesWithClamp(xlo: real, xhi: real, flo: real, fhi: real, x: real)
    requires xlo < xhi
    requires xlo <= x <= xhi
    ensures BlExtrap(xlo, xhi, flo, fhi, x) == BlClamp(xlo, xhi, flo, fhi, x)
  {
  }

  /**
   Interpolating first along x (on two rows) and then along y stays within
   the smallest and largest of the four corner values when the point lies
   inside the rectangle.
   */
  lemma BilinearWithinCorners(xlo: real, xhi: real, ylo: real, yhi: real,
                              f11: real, f21: real, f12: real, f22: real, x: real, y: real)
    requires xlo < xhi && ylo < yhi
    requires xlo <= x <= xhi && ylo <= y <= yhi
    ensures var lower := BlExtrap(xlo, xhi, f11, f21, x);
            var upper := BlExtrap(xlo, xhi, f12, f22, x);
            var f := BlExtrap(ylo, yhi, lower, upper, y);
            Min(Min(f11, f21), Min(f12, f22)) <= f <= Max(Max(f11, f21), Max(f12, f22))
  {
    var lower := BlExtrap(xlo, xhi, f11, f21, x);
    var upper := BlExtrap(xlo, xhi, f12, f22, x);
    ExtrapAgreesWithClamp(xlo, xhi, f11, f21, x);
    ExtrapAgreesWithClamp(xlo, xhi, f12, f22, x);
    ExtrapAgreesWithClamp(ylo, yhi, lower, upper, y);
  }

  /** Beyond either end the two interpolants differ whenever the endpoint values do. */
  lemma ExtrapLeavesClampOutside(xlo: real, xhi: real, flo: real, fhi: real, x: real)
    requires xlo < xhi
    requires x < xlo || xhi < x
    requires flo != fhi
    ensures BlExtrap(xlo, xhi, flo, fhi, x) != BlClamp(xlo, xhi, flo, fhi, x)
  {
    var f := BlExtrap(xlo, xhi, flo, fhi, x);
    assert f * (xhi - xlo) == flo * (xhi - x) + fhi * (x - xlo);
    if x < xlo {
      assert (f - flo) * (xhi - xlo) == (fhi - flo) * (x - xlo);
      ProductOfNonzeros(fhi - flo, x - xlo);
      assert f - flo != 0.0;
    } else {
      assert (f - fhi) * (xhi - xlo) == (fhi - flo) * (x - xhi);
      ProductOfNonzeros(fhi - flo, x - xhi);
      assert f - fhi != 0.0;
    }
  }

  lemma ProductOfNonzeros(a: real, b: real)
    requires a != 0.0 && b != 0.0
    ensures a * b != 0.0
  {
  }

  /** The extrapolating interpolant is monotone in `x` when the endpoint values are ordered. */
  lemma ExtrapMonotone(xlo: real, xhi: real, flo: real, fhi: real, x1: real, x2: real)
    requires xlo < xhi
    requires flo <= fhi
    requires x1 <= x2
    ensures BlExtrap(xlo, xhi, flo, fhi, x1) <= BlExtrap(xlo, xhi, flo, fhi, x2)
  {
    var f1 := BlExtrap(xlo, xhi, flo, fhi, x1);
    var f2 := BlExtrap(xlo, xhi, flo, fhi, x2);
    assert f1 * (xhi - xlo) == flo * (xhi - x1) + fhi * (x1 - xlo);
    assert f2 * (xhi - xlo) == flo * (xhi - x2) + fhi * (x2 - xlo);
    assert (f2 - f1) * (xhi - xlo) == (fhi - flo) * (x2 - x1);
    SignOfProduct(fhi - flo, x2 - x1);
    SignFromProduct(f2 - f1, xhi - xlo);
  }

  /**
   Strictly inside its interval the clamping interpolant is the line
   `flo + w * (fhi - flo)`, `w` the fraction of the way from `xlo` to `xhi`.
   */
  lemma ClampIsLine(xlo: real, xhi: real, flo: real, fhi: real, x: real)
    requires xlo < x < xhi
    ensures BlClamp(xlo, xhi, flo, fhi, x) == flo + (x - xlo) / (xhi - xlo) * (fhi - flo)
  {
    var len := xhi - xlo;
    var w := (x - xlo) / len;
    assert w * len == x - xlo;
    assert flo * (xhi - x) + fhi * (x - xlo) == (flo + w * (fhi - flo)) * len;
  }

  /** The difference quotient of two lines in the same weight `w` is the line through the difference quotients. */
  lemma DifferenceOfLines(a1: real, b1: real, c1: real, a2: real, b2: real, c2: real, w: real, d: real)
    requires d != 0.0
    requires c1 == a1 + w * (b1 - a1) && c2 == a2 + w * (b2 - a2)
    ensures (c1 - c2) / d == (a1 - a2) / d + w * ((b1 - b2) / d - (a1 - a2) / d)
  {
    var lhs := (c1 - c2) / d;
    var rhs := (a1 - a2) / d + w * ((b1 - b2) / d - (a1 - a2) / d);
    assert lhs * d == (a1 - a2) + w * ((b1 - b2) - (a1 - a2));
    assert rhs * d == (a1 - a2) + w * ((b1 - b2) - (a1 - a2));
  }

  /** The extrapolating interpolant is linear in its two endpoint values. */
  lemma ExtrapOfLines(xlo: real, xhi: real, a1: real, b1: real, c1: real, a2: real, b2: real, c2: real, w: real, x: real)
    requires xlo != xhi
    requires c1 == a1 + w * (b1 - a1) && c2 == a2 + w * (b2 - a2)
    ensures BlExtrap(xlo, xhi, c1, c2, x)
            == BlExtrap(xlo, xhi, a1, a2, x) + w * (BlExtrap(xlo, xhi, b1, b2, x) - BlExtrap(xlo, xhi, a1, a2, x))
  {
    var len := xhi - xlo;
    var ea, eb, e := BlExtrap(xlo, xhi, a1, a2, x), BlExtrap(xlo, xhi, b1, b2, x), BlExtrap(xlo, xhi, c1, c2, x);
    assert ea * len == a1 * (xhi - x) + a2 * (x - xlo);
    assert eb * len == b1 * (xhi - x) + b2 * (x - xlo);
    assert e * len == c1 * (xhi - x) + c2 * (x - xlo);
    assert (ea + w * (eb - ea)) * len == e * len;
  }

  /** A difference quotient of two clamped interpolants is the clamped interpolant of the difference quotients. */
  lemma ClampedDifference(xlo: real, xhi: real, u1: real, u2: real, l1: real, l2: real, d: real, x: real)
    requires xlo < xhi && d != 0.0
    ensures (BlClamp(xlo, xhi, u1, u2, x) - BlClamp(xlo, xhi, l1, l2, x)) / d
            == BlClamp(xlo, xhi, (u1 - l1) / d, (u2 - l2) / d, x)
  {
    if x <= xlo {
      assert BlClamp(xlo, xhi, u1, u2, x) - BlClamp(xlo, xhi, l1, l2, x) == u1 - l1;
    } else if x >= xhi {
      assert BlClamp(xlo, xhi, u1, u2, x) - BlClamp(xlo, xhi, l1, l2, x) == u2 - l2;
    } else {
      var w := (x - xlo) / (xhi - xlo);
      var cu, cl := BlClamp(xlo, xhi, u1, u2, x), BlClamp(xlo, xhi, l1, l2, x);
      ClampIsLine(xlo, xhi, u1, u2, x);
      ClampIsLine(xlo, xhi, l1, l2, x);
      ClampIsLine(xlo, xhi, (u1 - l1) / d, (u2 - l2) / d, x);
      DifferenceOfLines(u1, u2, cu, l1, l2, cl, w, d);
    }
  }

  /** Extrapolating between two clamped interpolants is clamping between the two extrapolations. */
  lemma ExtrapOfClamps(tlo: real, thi: real, xlo: real, xhi: real, p1: real, p2: real, q1: real, q2: real, x: real, t: real)
    requires tlo != thi && xlo < xhi
    ensures BlExtrap(tlo, thi, BlClamp(xlo, xhi, p1, p2, x), BlClamp(xlo, xhi, q1, q2, x), t)
            == BlClamp(xlo, xhi, BlExtrap(tlo, thi, p1, q1, t), BlExtrap(tlo, thi, p2, q2, t), x)
  {
    if xlo < x < xhi {
      var w := (x - xlo) / (xhi - xlo);
      var cp, cq := BlClamp(xlo, xhi, p1, p2, x), BlClamp(xlo, xhi, q1, q2, x);
      var e1, e2 := BlExtrap(tlo, thi, p1, q1, t), BlExtrap(tlo, thi, p2, q2, t);
      ClampIsLine(xlo, xhi, p1, p2, x);
      ClampIsLine(xlo, xhi, q1, q2, x);
      ClampIsLine(xlo, xhi, e1, e2, x);
      ExtrapOfLines(tlo, thi, p1, p2, cp, q1, q2, cq, w, t);
    }
  }

  /**
   Central differences of clamped interpolants, extrapolated in `t`, are the
   clamped interpolant of the central differences taken on each edge alone.
   */
  lemma ExtrapOfClampedDifferences(xlo: real, xhi: real, tm: real, t0: real, t1: real, t2: real,
                                   m1: real, m2: real, z1: real, z2: real, p1: real, p2: real, q1: real, q2: real,
                                   cm: real, cz: real, cp: real, cq: real, x: real, t: real)
    requires xlo < xhi && tm < t0 < t1 < t2
    requires cm == BlClamp(xlo, xhi, m1, m2, x) && cz == BlClamp(xlo, xhi, z1, z2, x)
    requires cp == BlClamp(xlo, xhi, p1, p2, x) && cq == BlClamp(xlo, xhi, q1, q2, x)
    ensures BlExtrap(t0, t1, (cp - cm) / (t1 - tm), (cq - cz) / (t2 - t0), t)
            == BlClamp(xlo, xhi,
                       BlExtrap(t0, t1, (p1 - m1) / (t1 - tm), (q1 - z1) / (t2 - t0), t),
                       BlExtrap(t0, t1, (p2 - m2) / (t1 - tm), (q2 - z2) / (t2 - t0), t), x)
  {
    ClampedDifference(xlo, xhi, p1, p2, m1, m2, t1 - tm, x);
    ClampedDifference(xlo, xhi, q1, q2, z1, z2, t2 - t0, x);
    ExtrapOfClamps(t0, t1, xlo, xhi, (p1 - m1) / (t1 - tm), (p2 - m2) / (t1 - tm), (q1 - z1) / (t2 - t0), (q2 - z2) / (t2 - t0), x, t);
  }
}

=== FILE: load.dfy ===
/**
 The table loader (`init_tab_info`). The file arrives as a sequence of
 lines already split into numbers; the first `nheader` lines are skipped
 whatever they hold. Each data line is `log10(rhoY) log10(T)` followed by
 the `nvars` table variables. Reading happens in two passes, as in the
 source: the rows fill the grid in rhoY-major order, then the axes and the
 rate, neutrino-loss and gamma columns are converted from log10 to linear.
 `pow10` stands for `std::pow(10, .)`.
 */
module Load {
  import opened TableFormat

  datatype LoadError = TableNeedsUpdate

  datatype Result<T> = Success(value: T) | Failure(error: LoadError)

  /** The file holds a full rectangular table after its header. */
  predicate WellFormedInput(meta: TableMeta, lines: seq<seq<real>>) {
    && meta.ntemp >= 1
    && meta.nrhoy >= 1
    && meta.nvars == NumVars
    && meta.nheader >= 0
    && |lines| >= meta.nheader + meta.ntemp * meta.nrhoy
    && forall k :: meta.nheader <= k < meta.nheader + meta.ntemp * meta.nrhoy ==> |lines[k]| >= 2 + meta.nvars
  }

  /** The line read for cell (i, j): rows run through temperature fastest, then rhoY. */
  function LineOf(meta: TableMeta, i: int, j: int): int {
    meta.nheader + (j - 1) * meta.ntemp + (i - 1)
  }

  /** Every cell of the grid is read from a distinct data line after the header. */
  lemma CellToRow(meta: TableMeta, i: int, j: int)
    requires meta.ntemp >= 1 && meta.nrhoy >= 1
    requires 1 <= i <= meta.ntemp && 1 <= j <= meta.nrhoy
    ensures meta.nheader <= LineOf(meta, i, j) < meta.nheader + meta.ntemp * meta.nrhoy
  {
    assert (j - 1) * meta.ntemp + meta.ntemp == j * meta.ntemp;
    assert j * meta.ntemp <= meta.nrhoy * meta.ntemp by {
      MulMonotone(j, meta.nrhoy, meta.ntemp);
    }
  }

  /** Data row `k` (counted from 0 after the header) fills cell (k % ntemp + 1, k / ntemp + 1). */
  lemma RowToCell(meta: TableMeta, k: int)
    requires meta.ntemp >= 1 && meta.nrhoy >= 1
    requires 0 <= k < meta.ntemp * meta.nrhoy
    ensures 1 <= k % meta.ntemp + 1 <= meta.ntemp
    ensures 1 <= k / meta.ntemp + 1 <= meta.nrhoy
    ensures LineOf(meta, k % meta.ntemp + 1, k / meta.ntemp + 1) == meta.nheader + k
  {
    var q, r := k / meta.ntemp, k % meta.ntemp;
    assert k == q * meta.ntemp + r;
    if q >= meta.nrhoy {
      MulMonotone(meta.nrhoy, q, meta.ntemp);
    }
  }

  lemma MulMonotone(a: int, b: int, c: int)
    requires a <= b && c >= 0
    ensures a * c <= b * c
  {
  }

  /** The two leading columns of the line for cell (i, j): 0 for log10(rhoY), 1 for log10(T). */
  function Coord(meta: TableMeta, lines: seq<seq<real>>, i: int, j: int, col: int): real
    requires WellFormedInput(meta, lines)
    requires 1 <= i <= meta.ntemp && 1 <= j <= meta.nrhoy && 0 <= col < 2
  {
    CellToRow(meta, i, j);
    lines[LineOf(meta, i, j)][col]
  }

  /** The table variables on the line for cell (i, j). */
  function Fields(meta: TableMeta, lines: seq<seq<real>>, i: int, j: int): (vars: seq<real>)
    requires WellFormedInput(meta, lines)
    requires 1 <= i <= meta.ntemp && 1 <= j <= meta.nrhoy
    ensures |vars| == NumVars
  {
    CellToRow(meta, i, j);
    lines[LineOf(meta, i, j)][2 .. 2 + meta.nvars]
  }

  /**
   First pass: the header lines are skipped, then the data lines are read
   one after the other. Every line overwrites its cell's record, the rhoY
   coordinate of its row and the temperature coordinate of its column, so an
   axis keeps the coordinate of the LAST line that wrote it. `next` is the
   number of lines consumed.
   */
  method ReadRows(meta: TableMeta, lines: seq<seq<real>>) returns (raw: Grid, next: int)
    requires WellFormedInput(meta, lines)
    ensures Shaped(meta, raw)
    ensures next == meta.nheader + meta.ntemp * meta.nrhoy
    ensures forall i0, j0 :: 0 <= i0 < meta.ntemp && 0 <= j0 < meta.nrhoy ==>
              raw.data[i0][j0] == Fields(meta, lines, i0 + 1, j0 + 1)
    ensures forall j0 :: 0 <= j0 < meta.nrhoy ==> raw.rhoy[j0] == Coord(meta, lines, meta.ntemp, j0 + 1, 0)
    ensures forall i0 :: 0 <= i0 < meta.ntemp ==> raw.temp[i0] == Coord(meta, lines, i0 + 1, meta.nrhoy, 1)
  {
    var ntemp, nrhoy := meta.ntemp, meta.nrhoy;
    next := 0;
    while next < meta.nheader
      invariant 0 <= next <= meta.nheader
    {
      next := next + 1;
    }
    var rhoy := seq(nrhoy, _ => 0.0);
    var temp := seq(ntemp, _ => 0.0);
    var data := seq(ntemp, _ => seq(nrhoy, _ => []));
    var j := 1;
    while j <= nrhoy
      invariant 1 <= j <= nrhoy + 1
      invariant next == meta.nheader + (j - 1) * ntemp
      invariant |rhoy| == nrhoy && |temp| == ntemp && |data| == ntemp
      invariant forall i0 :: 0 <= i0 < ntemp ==> |data[i0]| == nrhoy
      invariant forall i0, j0 :: 0 <= i0 < ntemp && 0 <= j0 < j - 1 ==>
                  data[i0][j0] == Fields(meta, lines, i0 + 1, j0 + 1)
      invariant forall j0 :: 0 <= j0 < j - 1 ==> rhoy[j0] == Coord(meta, lines, ntemp, j0 + 1, 0)
      invariant j > 1 ==> forall i0 :: 0 <= i0 < ntemp ==> temp[i0] == Coord(meta, lines, i0 + 1, j - 1, 1)
    {
      rhoy, temp, data, next := ReadRhoyRow(meta, lines, j, rhoy, temp, data, next);
      assert (j - 1) * ntemp + ntemp == j * ntemp;
      j := j + 1;
    }
    raw := Grid(rhoy, temp, data);
  }

  /**
   The inner loop of the first pass: the `ntemp` lines of rhoY row `j`,
   consumed in order from line `next0`. Only column `j` of the records and
   entry `j` of the rhoY axis change; the whole temperature axis is
   overwritten.
   */
  method ReadRhoyRow(meta: TableMeta, lines: seq<seq<real>>, j: int,
                     rhoy0: seq<real>, temp0: seq<real>, data0: seq<seq<seq<real>>>, next0: int)
    returns (rhoy: seq<real>, temp: seq<real>, data: seq<seq<seq<real>>>, next: int)
    requires WellFormedInput(meta, lines)
    requires 1 <= j <= meta.nrhoy
    requires next0 == meta.nheader + (j - 1) * meta.ntemp
    requires |rhoy0| == meta.nrhoy && |temp0| == meta.ntemp && |data0| == meta.ntemp
    requires forall i0 :: 0 <= i0 < meta.ntemp ==> |data0[i0]| == meta.nrhoy
    ensures next == next0 + meta.ntemp
    ensures |rhoy| == meta.nrhoy && |temp| == meta.ntemp && |data| == meta.ntemp
    ensures forall i0 :: 0 <= i0 < meta.ntemp ==> |data[i0]| == meta.nrhoy
    ensures forall i0, j0 :: 0 <= i0 < meta.ntemp && 0 <= j0 < meta.nrhoy ==>
              data[i0][j0] == if j0 == j - 1 then Fields(meta, lines, i0 + 1, j) else data0[i0][j0]
    ensures forall j0 :: 0 <= j0 < meta.nrhoy ==>
              rhoy[j0] == if j0 == j - 1 then Coord(meta, lines, meta.ntemp, j, 0) else rhoy0[j0]
    ensures forall i0 :: 0 <= i0 < meta.ntemp ==> temp[i0] == Coord(meta, lines, i0 + 1, j, 1)
  {
    var ntemp := meta.ntemp;
    rhoy, temp, data, next := rhoy0, temp0, data0, next0;
    var i := 1;
    while i <= ntemp
      invariant 1 <= i <= ntemp + 1
      invariant next == next0 + (i - 1)
      invariant |rhoy| == meta.nrhoy && |temp| == ntemp && |data| == ntemp
      invariant forall i0 :: 0 <= i0 < ntemp ==> |data[i0]| == meta.nrhoy
      invariant forall i0, j0 :: 0 <= i0 < ntemp && 0 <= j0 < meta.nrhoy ==>
                  data[i0][j0] == if j0 == j - 1 && i0 < i - 1 then Fields(meta, lines, i0 + 1, j) else data0[i0][j0]
      invariant forall j0 :: 0 <= j0 < meta.nrhoy && j0 != j - 1 ==> rhoy[j0] == rhoy0[j0]
      invariant i > 1 ==> rhoy[j - 1] == Coord(meta, lines, i - 1, j, 0)
      invariant forall i0 :: 0 <= i0 < i - 1 ==> temp[i0] == Coord(meta, lines, i0 + 1, j, 1)
    {
      CellToRow(meta, i, j);
      var line := lines[next];
      rhoy := rhoy[j - 1 := line[0]];
      temp := temp[i - 1 := line[1]];
      data := data[i - 1 := data[i - 1][j - 1 := line[2 .. 2 + meta.nvars]]];
      next := next + 1;
      i := i + 1;
    }
  }

  /** The record of one cell after conversion: rate, neutrino loss and gamma become linear. */
  function LinearVars(vars: seq<real>, pow10: real -> real): (out: seq<real>)
    requires |vars| == NumVars
    ensures |out| == NumVars
    ensures forall n :: 1 <= n <= NumVars && n != JtabRate && n != JtabNuloss && n != JtabGamma ==>
              At(out, n) == At(vars, n)
    ensures forall n :: n in {JtabRate, JtabNuloss, JtabGamma} ==> At(out, n) == pow10(At(vars, n))
  {
    vars[JtabRate - 1 := pow10(vars[JtabRate - 1])]
        [JtabNuloss - 1 := pow10(vars[JtabNuloss - 1])]
        [JtabGamma - 1 := pow10(vars[JtabGamma - 1])]
  }

  /**
   Second pass: each rhoY coordinate is converted once (on the first
   temperature of its row) and each temperature coordinate once (on the
   first rhoY row), after checking it against MaxLogTemp; every cell's
   rate, neutrino-loss and gamma columns are converted.
   */
  method ConvertToLinear(meta: TableMeta, raw: Grid, pow10: real -> real) returns (r: Result<Grid>)
    requires meta.ntemp >= 1 && meta.nrhoy >= 1
    requires Shaped(meta, raw)
    ensures r.Failure? <==> exists i0 :: 0 <= i0 < meta.ntemp && raw.temp[i0] > MaxLogTemp
    ensures r.Success? ==> Shaped(meta, r.value)
    ensures r.Success? ==> forall j0 :: 0 <= j0 < meta.nrhoy ==> r.value.rhoy[j0] == pow10(raw.rhoy[j0])
    ensures r.Success? ==> forall i0 :: 0 <= i0 < meta.ntemp ==> r.value.temp[i0] == pow10(raw.temp[i0])
    ensures r.Success? ==> forall i0, j0 :: 0 <= i0 < meta.ntemp && 0 <= j0 < meta.nrhoy ==>
              r.value.data[i0][j0] == LinearVars(raw.data[i0][j0], pow10)
  {
    var rhoy, temp, data := raw.rhoy, raw.temp, raw.data;
    var j := 1;
    while j <= meta.nrhoy
      invariant 1 <= j <= meta.nrhoy + 1
      invariant ConvertedRows(meta, raw, pow10, j, Grid(rhoy, temp, data))
    {
      var failed;
      failed, rhoy, temp, data := ConvertRhoyRow(meta, raw, pow10, j, rhoy, temp, data);
      if failed {
        return Failure(TableNeedsUpdate);
      }
      j := j + 1;
    }
    r := Success(Grid(rhoy, temp, data));
  }

  /**
   The state of the conversion before rhoY row `j`: rows below `j` are
   converted, the rest are as read, and once the first row is done every
   temperature is converted and known to be within MaxLogTemp.
   */
  predicate ConvertedRows(meta: TableMeta, raw: Grid, pow10: real -> real, j: int, g: Grid)
    requires Shaped(meta, raw)
  {
    && Shaped(meta, g)
    && (forall j0 :: 0 <= j0 < meta.nrhoy ==>
          g.rhoy[j0] == if j0 < j - 1 then pow10(raw.rhoy[j0]) else raw.rhoy[j0])
    && (j == 1 ==> g.temp == raw.temp)
    && (j > 1 ==> forall i0 :: 0 <= i0 < meta.ntemp ==>
          g.temp[i0] == pow10(raw.temp[i0]) && raw.temp[i0] <= MaxLogTemp)
    && (forall i0, j0 :: 0 <= i0 < meta.ntemp && 0 <= j0 < meta.nrhoy ==>
          g.data[i0][j0] == if j0 < j - 1 then LinearVars(raw.data[i0][j0], pow10) else raw.data[i0][j0])
  }

  /**
   The inner loop of the conversion for rhoY row `j`: the rhoY coordinate
   on the first pass over the row, each temperature during the first row
   (failing on one above MaxLogTemp), and the row's cells.
   */
  method ConvertRhoyRow(meta: TableMeta, raw: Grid, pow10: real -> real, j: int,
                        rhoy0: seq<real>, temp0: seq<real>, data0: seq<seq<seq<real>>>)
    returns (failed: bool, rhoy: seq<real>, temp: seq<real>, data: seq<seq<seq<real>>>)
    requires meta.ntemp >= 1 && Shaped(meta, raw)
    requires 1 <= j <= meta.nrhoy
    requires ConvertedRows(meta, raw, pow10, j, Grid(rhoy0, temp0, data0))
    ensures failed <==> j == 1 && exists i0 :: 0 <= i0 < meta.ntemp && raw.temp[i0] > MaxLogTemp
    ensures !failed ==> ConvertedRows(meta, raw, pow10, j + 1, Grid(rhoy, temp, data))
  {
    var ntemp, nrhoy := meta.ntemp, meta.nrhoy;
    rhoy, temp, data := rhoy0, temp0, data0;
    failed := false;
    var i := 1;
    while i <= ntemp
      invariant 1 <= i <= ntemp + 1
      invariant |rhoy| == nrhoy && |temp| == ntemp && |data| == ntemp
      invariant forall i0 :: 0 <= i0 < ntemp ==> |data[i0]| == nrhoy
      invariant forall i0, j0 :: 0 <= i0 < ntemp && 0 <= j0 < nrhoy ==> |data[i0][j0]| == NumVars
      invariant forall j0 :: 0 <= j0 < nrhoy ==>
                  rhoy[j0] == if j0 < j - 1 || (j0 == j - 1 && i > 1) then pow10(raw.rhoy[j0]) else raw.rhoy[j0]
      invariant j == 1 ==> forall i0 :: 0 <= i0 < ntemp ==>
                  if i0 < i - 1 then temp[i0] == pow10(raw.temp[i0]) && raw.temp[i0] <= MaxLogTemp
                  else temp[i0] == raw.temp[i0]
      invariant j > 1 ==> forall i0 :: 0 <= i0 < ntemp ==> temp[i0] == pow10(raw.temp[i0]) && raw.temp[i0] <= MaxLogTemp
      invariant forall i0, j0 :: 0 <= i0 < ntemp && 0 <= j0 < nrhoy ==>
                  data[i0][j0] == if j0 < j - 1 || (j0 == j - 1 && i0 < i - 1) then LinearVars(raw.data[i0][j0], pow10)
                                  else raw.data[i0][j0]
    {
      if i == 1 {
        rhoy := rhoy[j - 1 := pow10(rhoy[j - 1])];
      }
      if j == 1 {
        if temp[i - 1] > MaxLogTemp {
          failed := true;
          return;
        }
        temp := temp[i - 1 := pow10(temp[i - 1])];
      }
      data := data[i - 1 := data[i - 1][j - 1 := LinearVars(data[i - 1][j - 1], pow10)]];
      i := i + 1;
    }
  }

  /**
   The grid `g` is what loading `lines` produces: coordinates and the rate,
   neutrino-loss and gamma columns converted from log10 exactly once, the
   other columns as read. Each axis takes its coordinates from the last
   line that wrote them: rhoY row `j` from the line of cell (ntemp, j),
   temperature column `i` from the line of cell (i, nrhoy).
   */
  predicate LoadedFrom(meta: TableMeta, lines: seq<seq<real>>, pow10: real -> real, g: Grid)
    requires WellFormedInput(meta, lines)
  {
    && Shaped(meta, g)
    && (forall j :: 1 <= j <= meta.nrhoy ==> At(g.rhoy, j) == pow10(Coord(meta, lines, meta.ntemp, j, 0)))
    && (forall i :: 1 <= i <= meta.ntemp ==> At(g.temp, i) == pow10(Coord(meta, lines, i, meta.nrhoy, 1)))
    && (forall i, j, n :: 1 <= i <= meta.ntemp && 1 <= j <= meta.nrhoy && 1 <= n <= NumVars ==>
          Data(g, i, j, n) == At(LinearVars(Fields(meta, lines, i, j), pow10), n))
  }

  /**
   `init_tab_info`: the loaded table, or the fatal error raised when a
   temperature coordinate (as last written in the first pass) exceeds
   MaxLogTemp in log10.
   */
  method InitTabInfo(meta: TableMeta, lines: seq<seq<real>>, pow10: real -> real) returns (r: Result<Grid>)
    requires WellFormedInput(meta, lines)
    ensures r.Failure? <==> exists i :: 1 <= i <= meta.ntemp && Coord(meta, lines, i, meta.nrhoy, 1) > MaxLogTemp
    ensures r.Success? ==> LoadedFrom(meta, lines, pow10, r.value)
  {
    var raw, _ := ReadRows(meta, lines);
    r := ConvertToLinear(meta, raw, pow10);
    if r.Failure? {
      var i0 :| 0 <= i0 < meta.ntemp && raw.temp[i0] > MaxLogTemp;
      assert Coord(meta, lines, i0 + 1, meta.nrhoy, 1) > MaxLogTemp;
    } else {
      forall i | 1 <= i <= meta.ntemp
        ensures Coord(meta, lines, i, meta.nrhoy, 1) <= MaxLogTemp
      {
        assert raw.temp[i - 1] == Coord(meta, lines, i, meta.nrhoy, 1);
      }
    }
  }
}

=== FILE: loaded_table.dfy ===
/**
 Loader and evaluator together: evaluating a loaded table at one of its
 lattice points returns the linear values of the line that filled that cell.
 */
module LoadedTable {
  import opened TableFormat
  import opened Load
  import opened Evaluate
  import opened EvaluateProperties

  /**
   At the lattice point (rhoY row `j`, temperature column `i`) of a loaded
   table, the rate and the loss terms are 10 to the logarithms on the line
   read for cell (i, j), the neutrino loss negated.
   */
  lemma LoadedLatticeOutputs(meta: TableMeta, lines: seq<seq<real>>, pow10: real -> real, g: Grid, i: int, j: int)
    requires WellFormedInput(meta, lines)
    requires LoadedFrom(meta, lines, pow10, g)
    requires Evaluable(meta, g)
    requires 1 <= i <= meta.ntemp && 1 <= j <= meta.nrhoy
    ensures var out := TabularEvaluate(meta, g, pow10(Coord(meta, lines, meta.ntemp, j, 0)),
                                                pow10(Coord(meta, lines, i, meta.nrhoy, 1)));
            && out.rate == pow10(At(Fields(meta, lines, i, j), JtabRate))
            && out.edotNu == -pow10(At(Fields(meta, lines, i, j), JtabNuloss))
            && out.edotGamma == pow10(At(Fields(meta, lines, i, j), JtabGamma))
  {
    TabularEvaluateAtLattice(meta, g, i, j);
    assert Data(g, i, j, JtabRate) == At(LinearVars(Fields(meta, lines, i, j), pow10), JtabRate);
    assert Data(g, i, j, JtabNuloss) == At(LinearVars(Fields(meta, lines, i, j), pow10), JtabNuloss);
    assert Data(g, i, j, JtabGamma) == At(LinearVars(Fields(meta, lines, i, j), pow10), JtabGamma);
  }
}

=== FILE: table_format.dfy ===
/**
 The data model of a tabulated weak rate: the table metadata record, the
 1-based table variables, and the rectangular (temperature x rhoY) grid the
 loader fills and the evaluator reads.

 All indices that mirror the C++ `Array1D`/`Array3D` containers are 1-based;
 the accessors `At` and `Data` translate them to Dafny's 0-based sequences.
 */
module TableFormat {

  /** Indices of the quantities stored per grid cell (the `TableVars` enumeration). */
  const JtabMu: int := 1
  const JtabDq: int := 2
  const JtabVs: int := 3
  const JtabRate: int := 4
  const JtabNuloss: int := 5
  const JtabGamma: int := 6
  const NumVars: int := JtabGamma

  /** The derivative d(rate)/dT is an extra slot of the evaluator's entries, not a table column. */
  const KDrateDt: int := 7
  const AddVars: int := 1

  /** The largest log10(temperature) a table may contain before it is rejected. */
  const MaxLogTemp: real := 33.0

  /** Table dimensions and layout (`table_t`). */
  datatype TableMeta = TableMeta(ntemp: int, nrhoy: int, nvars: int, nheader: int)

  /**
   A loaded table: the rhoY axis, the temperature axis, and the cell records.
   `data[i-1][j-1][n-1]` is variable `n` at temperature `i` and rhoY `j`.
   */
  datatype Grid = Grid(rhoy: seq<real>, temp: seq<real>, data: seq<seq<seq<real>>>)

  /** 1-based element access. */
  function At(v: seq<real>, k: int): real
    requires 1 <= k <= |v|
  {
    v[k - 1]
  }

  /** 1-based access to variable `n` of cell (`i`, `j`). */
  function Data(g: Grid, i: int, j: int, n: int): real
    requires 1 <= i <= |g.data| && 1 <= j <= |g.data[i - 1]| && 1 <= n <= |g.data[i - 1][j - 1]|
  {
    g.data[i - 1][j - 1][n - 1]
  }

  /** The grid has exactly the dimensions `meta` declares, with every cell present. */
  predicate Shaped(meta: TableMeta, g: Grid) {
    && |g.rhoy| == meta.nrhoy
    && |g.temp| == meta.ntemp
    && |g.data| == meta.ntemp
    && (forall i0 :: 0 <= i0 < |g.data| ==> |g.data[i0]| == meta.nrhoy)
    && (forall i0, j0 :: 0 <= i0 < |g.data| && 0 <= j0 < |g.data[i0]| ==> |g.data[i0][j0]| == NumVars)
  }

  /** The first `vlen` entries of `v` are strictly increasing. */
  predicate StrictlyIncreasing(v: seq<real>, vlen: int)
    requires vlen <= |v|
  {
    forall a, b :: 1 <= a < b <= vlen ==> At(v, a) < At(v, b)
  }

  function Min(a: real, b: real): real {
    if a <= b then a else b
  }

  function Max(a: real, b: real): real {
    if a <= b then b else a
  }
}

=== FILE: vector_index.dfy ===
/**
 The bracketing-index search over one table axis (`vector_index_lu`).

 `Bisect` is the halving loop written as a recursion over its state
 (`ndn`, `nup`, iteration counter); `IndexLu` adds the two out-of-range
 branches. `VectorIndexLu` and `HalvingLoop` are the imperative code, proved
 to compute `IndexLu`.
 */
module VectorIndex {
  import opened TableFormat

  /** The probe index of one halving step, `ndn + (nup - ndn)/2` (integer division). */
  function Midpoint(ndn: int, nup: int): (j: int)
    requires ndn <= nup
    ensures ndn <= j <= nup
    ensures nup - ndn >= 2 ==> ndn < j < nup
    ensures nup - ndn <= 1 ==> j == ndn
  {
    ndn + (nup - ndn) / 2
  }

  /**
   The halving loop entered at iteration `iter` with bounds `ndn <= nup`.
   The loop runs at most `vlen` iterations and stops early once the bounds
   are adjacent; the result is the final `ndn`.
   */
  function Bisect(vlen: int, v: seq<real>, fvar: real, ndn: int, nup: int, iter: int): int
    requires 1 <= ndn <= nup <= vlen <= |v|
    requires 1 <= iter <= vlen + 1
    decreases vlen + 1 - iter
  {
    if iter > vlen then ndn
    else
      var j := Midpoint(ndn, nup);
      var dn := if fvar < At(v, j) then ndn else j;
      var up := if fvar < At(v, j) then j else nup;
      if up - dn == 1 then dn
      else Bisect(vlen, v, fvar, dn, up, iter + 1)
  }

  /** The halving loop never leaves its starting bounds, and ends below `nup` when they differ. */
  lemma {:induction false} BisectInBounds(vlen: int, v: seq<real>, fvar: real, ndn: int, nup: int, iter: int)
    requires 1 <= ndn <= nup <= vlen <= |v|
    requires 1 <= iter <= vlen + 1
    ensures ndn <= Bisect(vlen, v, fvar, ndn, nup, iter) <= nup
    ensures ndn < nup ==> Bisect(vlen, v, fvar, ndn, nup, iter) < nup
    decreases vlen + 1 - iter
  {
    if iter <= vlen {
      var j := Midpoint(ndn, nup);
      var dn := if fvar < At(v, j) then ndn else j;
      var up := if fvar < At(v, j) then j else nup;
      if up - dn != 1 {
        BisectInBounds(vlen, v, fvar, dn, up, iter + 1);
      }
    }
  }

  /**
   The loop invariant of the halving loop: `vector(ndn) <= fvar`, and
   `fvar < vector(nup)` or `nup == vlen`. With enough iterations left to
   halve `nup - ndn` down to 1, the loop ends on a unit interval that
   still satisfies it.
   */
  lemma {:induction false} BisectBrackets(vlen: int, v: seq<real>, fvar: real, ndn: int, nup: int, iter: int)
    requires 1 <= ndn < nup <= vlen <= |v|
    requires 1 <= iter <= vlen + 1
    requires nup - ndn <= vlen - iter
    requires At(v, ndn) <= fvar && (fvar < At(v, nup) || nup == vlen)
    ensures var r := Bisect(vlen, v, fvar, ndn, nup, iter);
            ndn <= r < nup && At(v, r) <= fvar && (fvar < At(v, r + 1) || r + 1 == vlen)
    decreases vlen + 1 - iter
  {
    BisectInBounds(vlen, v, fvar, ndn, nup, iter);
    var r := Bisect(vlen, v, fvar, ndn, nup, iter);
    var j := Midpoint(ndn, nup);
    if nup - ndn == 1 {
      assert r == ndn;
    } else if fvar < At(v, j) {
      if j - ndn == 1 {
        assert r == ndn;
      } else {
        assert r == Bisect(vlen, v, fvar, ndn, j, iter + 1);
        BisectBrackets(vlen, v, fvar, ndn, j, iter + 1);
      }
    } else {
      if nup - j == 1 {
        assert r == j;
      } else {
        assert r == Bisect(vlen, v, fvar, j, nup, iter + 1);
        BisectBrackets(vlen, v, fvar, j, nup, iter + 1);
      }
    }
  }

  /**
   The lower index of the axis interval holding `fvar`: 1 below the axis,
   `vlen - 1` above it, and the bracketing interval otherwise.
   */
  function IndexLu(vlen: int, v: seq<real>, fvar: real): (index: int)
    requires 1 <= vlen <= |v|
    ensures vlen >= 2 ==> 1 <= index < vlen
    ensures fvar < At(v, 1) ==> index == 1
    ensures At(v, 1) <= fvar && At(v, vlen) < fvar ==> index == vlen - 1
    ensures vlen >= 2 && At(v, 1) <= fvar <= At(v, vlen)
            ==> At(v, index) <= fvar <= At(v, index + 1)
    ensures vlen >= 2 && At(v, 1) <= fvar <= At(v, vlen)
            ==> fvar < At(v, index + 1) || index + 1 == vlen
  {
    if fvar < At(v, 1) then 1
    else if fvar > At(v, vlen) then vlen - 1
    else
      BisectInBounds(vlen, v, fvar, 1, vlen, 1);
      if vlen >= 2 then
        BisectBrackets(vlen, v, fvar, 1, vlen, 1);
        Bisect(vlen, v, fvar, 1, vlen, 1)
      else Bisect(vlen, v, fvar, 1, vlen, 1)
  }

  /**
   On a strictly increasing axis and a query inside it, `IndexLu` is the
   greatest index below `vlen` whose coordinate does not exceed the query.
   */
  lemma IndexLuIsGreatest(vlen: int, v: seq<real>, fvar: real)
    requires 2 <= vlen <= |v|
    requires StrictlyIncreasing(v, vlen)
    requires At(v, 1) <= fvar <= At(v, vlen)
    ensures At(v, IndexLu(vlen, v, fvar)) <= fvar
    ensures forall k :: IndexLu(vlen, v, fvar) < k < vlen ==> fvar < At(v, k)
  {
    var index := IndexLu(vlen, v, fvar);
    forall k | index < k < vlen
      ensures fvar < At(v, k)
    {
      if k > index + 1 {
        assert At(v, index + 1) < At(v, k);
      }
    }
  }

  /** On a strictly increasing axis, coordinate order is index order. */
  lemma IncreasingReflectsOrder(vlen: int, v: seq<real>, a: int, b: int)
    requires vlen <= |v|
    requires StrictlyIncreasing(v, vlen)
    requires 1 <= a <= vlen && 1 <= b <= vlen
    requires At(v, a) <= At(v, b)
    ensures a <= b
  {
  }

  /** A query exactly on grid line `i` lands in the interval starting at `i` (or the last one). */
  lemma IndexLuAtLattice(vlen: int, v: seq<real>, i: int)
    requires 2 <= vlen <= |v|
    requires StrictlyIncreasing(v, vlen)
    requires 1 <= i <= vlen
    ensures IndexLu(vlen, v, At(v, i)) == if i < vlen then i else vlen - 1
  {
    var index := IndexLu(vlen, v, At(v, i));
    assert At(v, 1) <= At(v, i) <= At(v, vlen) by {
      if 1 < i { assert At(v, 1) < At(v, i); }
      if i < vlen { assert At(v, i) < At(v, vlen); }
    }
    IndexLuIsGreatest(vlen, v, At(v, i));
    IncreasingReflectsOrder(vlen, v, index, i);
    if i == vlen {
      IncreasingReflectsOrder(vlen, v, vlen, index + 1);
    }
  }

  /** A query below the second grid line always selects the first interval. */
  lemma IndexLuBelowSecond(vlen: int, v: seq<real>, fvar: real)
    requires 2 <= vlen <= |v|
    requires StrictlyIncreasing(v, vlen)
    requires fvar < At(v, 2)
    ensures IndexLu(vlen, v, fvar) == 1
  {
    var index := IndexLu(vlen, v, fvar);
    if At(v, 1) <= fvar {
      assert fvar <= At(v, vlen) by {
        if 2 < vlen { assert At(v, 2) < At(v, vlen); }
      }
      IncreasingReflectsOrder(vlen, v, index, 2);
    }
  }

  /** Every query at or above the second-to-last coordinate, including one above the axis, selects the last interval. */
  lemma IndexLuFromSecondLast(vlen: int, v: seq<real>, fvar: real)
    requires 2 <= vlen <= |v|
    requires StrictlyIncreasing(v, vlen)
    requires At(v, vlen - 1) <= fvar
    ensures IndexLu(vlen, v, fvar) == vlen - 1
  {
    var index := IndexLu(vlen, v, fvar);
    if fvar <= At(v, vlen) {
      assert At(v, 1) <= fvar by {
        if 1 < vlen - 1 { assert At(v, 1) < At(v, vlen - 1); }
      }
      IncreasingReflectsOrder(vlen, v, vlen - 1, index + 1);
    }
  }

  /** `vector_index_lu`: the two out-of-range branches around the halving loop. */
  method VectorIndexLu(vlen: int, v: seq<real>, fvar: real) returns (index: int)
    requires 1 <= vlen <= |v|
    ensures index == IndexLu(vlen, v, fvar)
    ensures vlen >= 2 ==> 1 <= index < vlen
    ensures vlen >= 2 && At(v, 1) <= fvar <= At(v, vlen) ==> At(v, index) <= fvar <= At(v, index + 1)
  {
    if fvar < At(v, 1) {
      index := 1;
    } else if fvar > At(v, vlen) {
      index := vlen - 1;
    } else {
      index := HalvingLoop(vlen, v, fvar);
    }
  }

  /**
   The halving loop of `vector_index_lu`: at most `vlen` iterations, left
   early once `ndn` and `nup` are adjacent.
   */
  method HalvingLoop(vlen: int, v: seq<real>, fvar: real) returns (ndn: int)
    requires 1 <= vlen <= |v|
    ensures ndn == Bisect(vlen, v, fvar, 1, vlen, 1)
  {
    var nup := vlen;
    ndn := 1;
    var i := 1;
    while i <= vlen
      invariant 1 <= i <= vlen + 1
      invariant 1 <= ndn <= nup <= vlen
      invariant Bisect(vlen, v, fvar, ndn, nup, i) == Bisect(vlen, v, fvar, 1, vlen, 1)
      decreases vlen + 1 - i
    {
      var adjacent;
      ndn, nup, adjacent := HalvingStep(vlen, v, fvar, ndn, nup, i);
      if adjacent {
        break;
      }
      i := i + 1;
    }
  }

  /**
   One pass of the halving loop: probe the midpoint, move the bound on the
   side of `fvar`, and report whether the bounds are now adjacent.
   */
  method HalvingStep(vlen: int, v: seq<real>, fvar: real, ndn: int, nup: int, i: int)
    returns (dn: int, up: int, adjacent: bool)
    requires 1 <= ndn <= nup <= vlen <= |v|
    requires 1 <= i <= vlen
    ensures 1 <= dn <= up <= vlen
    ensures || (dn == ndn && up == Midpoint(ndn, nup) && fvar < At(v, up))
            || (dn == Midpoint(ndn, nup) && up == nup && At(v, dn) <= fvar)
    ensures adjacent <==> up - dn == 1
    ensures adjacent ==> Bisect(vlen, v, fvar, ndn, nup, i) == dn
    ensures !adjacent ==> Bisect(vlen, v, fvar, ndn, nup, i) == Bisect(vlen, v, fvar, dn, up, i + 1)
  {
    var j := Midpoint(ndn, nup);
    dn, up := ndn, nup;
    if fvar < At(v, j) {
      up := j;
    } else {
      dn := j;
    }
    adjacent := up - dn == 1;
  }
}
